=== FILE: README.md ===
# esp-interstellar-clock display layer in Dafny

This project models the deterministic layer of an ESP32 clock that drives a
TM1637 4-digit 7-segment display. The layer has four parts:

- the digit table and the query-string extraction (`src/utils.rs`);
- the hour/minute-to-digits decomposition and the SNTP wait (`src/time.rs`);
- the message frames, the time frame and the device operations `write`,
  `init_display` and `update_display_time` (`src/display.rs`);
- the HTTP handlers `get_status`, `set_digits`, `set_brightness` and
  `sync_time` (`src/handler.rs`).

Each operation is a pure function or a method. It maps the display state to
a new state and a `Result`. The pieces are:

- **Device.** A record holding three things: whether the chip is
  initialized, its brightness, and the prints made since the last clear.
  A print is either `Raw(pos, segments)` or `Hex(pos, digits)`. The `Hex`
  case keeps the driver's `print_hex` uninterpreted.
- **Transport failures.** Every transport call (`init`, `set_brightness`,
  `clear`, `print_raw`, `print_hex`) takes a parameter
  `failing: set<DeviceCall>`. A call listed there returns
  `Err(Display(call))`, which models `AppError::Display`. The `?` operator
  stops the operation at the first failure. Effects of calls that already
  succeeded are kept, which is why operations return
  `Outcome(device, result)`.
- **Bytes.** URIs, extracted digits and response bodies are byte sequences
  (`seq<uint8>`). This matches the source: `find_digits_in_url` returns the
  UTF-8 bytes of a slice, and `u8::from_str` reads bytes. Every delimiter
  involved (`?`, `&`, `+`, the digits) is ASCII, so searching the bytes
  finds the same positions as searching the characters.
- **Partners.** Each operation is paired with an inverse or an independent
  reference definition, and a lemma connects the two:
  - `DecodeDigit` reads a segment pattern back as a digit;
  - `DecodeTimeFrame` reads a frame back as four digits;
  - `MessageOf` reads a frame back as a message;
  - `ReadClock` reads `HH:MM` text back as a time;
  - `IsU8Literal` is the reference for `u8::from_str`;
  - `ExtractedFrom` is the reference for `find_digits_in_url`;
  - `AsksForLevel` is the reference for the brightness request.
- **Parameters for what cannot be seen.** The clock reading, the SNTP status
  seen by each poll, the network name and the time-zone name are passed in
  as parameters.

Three details of `src/handler.rs` that the model keeps:

- `set_digits` clears the display and calls `print_hex` itself, under its
  own lock (`src/handler.rs:79-81`); it does not call `write`.
- `set_digits` hands `print_hex` every byte between the first `?` and the
  first `&` after it, however many there are.
- `set_brightness` parses everything after the first `?`, other parameters
  included (`src/handler.rs:114-115`), so `?5&x` is not a number and is
  ignored.

## Model

| member | source | states |
|---|---|---|
| Utils.DigitTableDistinct | src/utils.rs:2-13 | the digit table has exactly ten entries and no two digits share a pattern |
| Utils.SeparatorClear | src/utils.rs:3-12 | every digit pattern has bit 7 clear, so OR-ing in 0x80 always changes it |
| Utils.DecodeDigit | src/utils.rs:2-13 | a pattern reads back as a digit exactly when it is in the table, and then as a digit whose table entry it is |
| Utils.DigitRoundTrip | src/utils.rs:2-13 | the pattern of digit d reads back as d |
| Utils.DecodeDigits | src/utils.rs:2-13 | reading patterns back yields one digit below ten per pattern, or fails |
| Utils.DecodeGlyphs | src/utils.rs:2-13 | decoding the table patterns of any digit sequence gives the digits back |
| Utils.DecodeDigitsInverse | src/utils.rs:2-13 | any patterns that decode are exactly the table patterns of their digits |
| Bytes.IndexOf | src/utils.rs:34 | the first-occurrence search that `find` performs: the found position holds the byte and no earlier one does; no result iff the byte is absent |
| Utils.FindDigitsInUrl | src/utils.rs:32-45 | empty when the URL has no `?`; never contains `&`; at most `\|url\| - 1` long; satisfies the reference definition of the token after the first `?` |
| Utils.ExtractedFromUnique | src/utils.rs:34-40 | only one token satisfies the reference definition, and it is the extracted one |
| Utils.FindDigitsOfQuery | src/utils.rs:34-40 | a URL built from a path without `?`, a token without `&` and an empty or `&`-led tail yields the token |
| Utils.FindDigitsWholeRemainder | src/utils.rs:37 | with no `&` after the first `?`, the whole remainder is returned unchanged |
| Utils.FindDigitsDocExample | src/utils.rs:26-30 | the documented example `http://example.com?12345&other_param=value` yields `12345` |
| Time.GetTime | src/time.rs:65-79 | four digits, each below ten, the first at most 2 and the third at most 5, reading back as the given hour and minute |
| Time.GetTimeOnto | src/time.rs:71-76 | every valid digit quadruple is the decomposition of the time it reads as |
| Time.GetTimeInjective | src/time.rs:71-76 | different times give different digits |
| Time.GetTimeExamples | src/time.rs:71-76 | 09:05 gives [0,9,0,5], 23:59 gives [2,3,5,9], 00:00 gives [0,0,0,0] |
| Time.InitSntp | src/time.rs:45-51 | returns only at a poll that saw `Completed`, and no earlier poll saw it |
| Display.MessageBytes | src/display.rs:39-54 | the segment patterns of a message; no position carries the separator bit, so a message never shows the colon |
| Display.MessageOf | src/display.rs:39-54 | a frame recognised as a message is that message's frame |
| Display.MessageRoundTrip | src/display.rs:39-54 | each message frame reads back as its message; the Init and Sync frames differ |
| Display.Write | src/display.rs:156-166 | succeeds iff neither clear nor print fails; on success the display holds exactly the frame; a failed clear returns its error and changes nothing; a failed print returns its error and leaves the display blank; brightness and initialization untouched |
| Display.WriteIdempotent | src/display.rs:156-166 | writing a frame twice gives the same device state and result as writing it once |
| Display.WriteForgetsPrevious | src/display.rs:161-163 | a successful write's outcome does not depend on what the display showed before |
| Display.InitDisplay | src/display.rs:96-108 | succeeds iff none of init, brightness, clear, print fails; then the device is initialized, at brightness 5, showing the Init message; otherwise the first failing call's error is returned: a failed init changes nothing, a failed brightness call leaves the chip initialized, a failed clear leaves it also at brightness 5, a failed print leaves it initialized, at brightness 5 and blank |
| Display.TimeFrame | src/display.rs:130-135 | position 1 carries the separator bit, positions 0, 2 and 3 do not |
| Display.TimeFrameRoundTrip | src/display.rs:130-135 | a time frame reads back as the digits it was built from |
| Display.DecodeTimeFrame | src/display.rs:130-135 | a frame that decodes yields four digits below ten |
| Display.DecodeTimeFrameInverse | src/display.rs:130-135 | every frame that decodes as a time is the time frame of the decoded digits |
| Display.MessagesAreNotTimes | src/display.rs:41-52 | neither message frame can be read as a time |
| Display.TimeFrameIsNoMessage | src/display.rs:130-135 | no time frame spells a message |
| Display.WrittenTimeShown | src/display.rs:137 | after a successful write of a time frame the display shows that hour and minute and no message |
| Display.UpdateDisplayTime | src/display.rs:123-140 | succeeds iff clear and print succeed, and then shows exactly the given hour and minute and no message; a failed clear changes nothing; a failed print leaves the display blank |
| Decimal.ParseU8 | src/handler.rs:115 | a parsed value satisfies the reference definition of a `u8` literal (optional `+`, one or more digits, value at most 255); a failure means no value does |
| Decimal.AccumulateSpec | src/handler.rs:115 | the checked digit-by-digit accumulation fails exactly on a non-digit or a value above 255 |
| Decimal.ParseU8Accepts | src/handler.rs:115 | `0`, `1`, `7`, `8`, `+7`, `007` and `255` parse to 0, 1, 7, 8, 7, 7 and 255 |
| Decimal.ParseU8Rejects | src/handler.rs:115 | `256`, `-1`, `+`, `abc`, `5&x` and the empty text do not parse |
| Decimal.DecimalText | src/handler.rs:43-52 | `Display` of an integer is a non-empty string of digits with no leading zero |
| Decimal.DecimalTextValue | src/handler.rs:43-52 | the printed digits denote the printed number |
| Decimal.ParseDecimalText | src/handler.rs:115 | parsing the printed text of any `u8` gives the number back |
| Handler.ClockText | src/handler.rs:46-51 | the five-byte `HH:MM` text of four digits, which reads back as the hour and minute the digits denote |
| Handler.ClockTextRoundTrip | src/handler.rs:46-51 | the `HH:MM` text of a time reads back as that time |
| Handler.GetStatus | src/handler.rs:38-58 | the status text starts with the SSID label and the SSID, and its last paragraph holds `HH:MM` reading back as the current time |
| Handler.SetDigits | src/handler.rs:73-91 | succeeds iff clear and `print_hex` succeed, answering `Digits inserted!`; the display then holds one hex print at 0 of exactly the extracted token; a failed clear changes nothing; a failed `print_hex` returns its error and leaves the display blank; brightness and initialization untouched |
| Handler.SetBrightness | src/handler.rs:107-129 | success always answers `Brightness Updated!`; the only error is the brightness call's; only brightness changes, and it stays in 1..=7 if it was |
| Handler.RequestedLevel | src/handler.rs:113-115 | a URI without `?` asks for no level; a level read is a `u8` literal making up everything after the first `?` |
| Handler.RequestedLevelSpec | src/handler.rs:113-115 | the level read from the URI is exactly the value the reference definition describes |
| Handler.BrightnessApplied | src/handler.rs:113-119 | a query that is a `u8` literal in 1..=7 sets exactly that brightness, unless the transport fails |
| Handler.BrightnessIgnored | src/handler.rs:113-125 | any other URI leaves the device unchanged and answers success |
| Handler.RequestedLevelOfQuery | src/handler.rs:113-115 | for a path without `?`, the level is read from the whole query, `&` included |
| Handler.IgnoredQuery | src/handler.rs:113-125 | a query that does not parse as a level in 1..=7 leaves the device unchanged and answers success |
| Handler.AppliedQuery | src/handler.rs:113-119 | a query that parses to a level in 1..=7 sets exactly that brightness and answers success when the transport works |
| Handler.BrightnessOutOfRangeExamples | src/handler.rs:115-116 | queries `0` and `8` parse but are outside 1..=7: device unchanged, success answered |
| Handler.BrightnessNotNumberExamples | src/handler.rs:115 | queries `abc`, `5&x` and the empty query do not parse: device unchanged, success answered |
| Handler.BrightnessAcceptedExamples | src/handler.rs:114-117 | queries `1` and `7` set brightness 1 and 7 |
| Handler.BrightnessPaddedExamples | src/handler.rs:114-117 | queries `+7` and `007` set brightness 7 |
| Handler.StartupMakesReady | src/main.rs:27-30 | after a successful display initialization the device is initialized and at a brightness in 1..=7 |
| Handler.SyncTime | src/handler.rs:145-169 | success, answered as `Time synced successfully!`, needs both writes to succeed; whenever the Sync write succeeds, the Sync message is shown while polling and the wait ends at the first poll that saw `Completed`, even if the later time write fails; on success the display then shows the time read at that point and not the Sync message; a failed Sync clear changes nothing and a failed Sync print leaves the display blank, both returned before any poll; a failed time clear returns its error with Sync still shown; a failed time print returns its error with the display blank |

## Left out

- `src/wifi.rs`, `src/server.rs`, the route registration and bootstrap in `src/main.rs`, `get_display` (pin setup) and the `index` page are platform set-up and static content. Only the start-up ordering is used, as `Handler.StartupMakesReady` and the `Handler.Ready` predicate.
- The 60-second ticker loop of `src/main.rs:108-114` is left out. It never ends, and each iteration is `Display.UpdateDisplayTime`.
- `Arc<Mutex<…>>` sharing is left out. Each locked region is one sequential step, and interleavings are not modelled. Panics from a poisoned lock (`unwrap`) are not modelled either.
- The TM1637 transport is reduced to success or failure per call kind. A failed call is assumed to leave the modelled state unchanged. A call kind either fails throughout one operation or never does.
- What `init` does to the chip beyond marking it initialized is not modelled. Neither are the glyphs that `print_hex` draws for its bytes.
- Errors from writing the HTTP response (`into_ok_response`, `write`), and the `IO` and `System` variants of `AppError`, are not modelled. The response body is returned as the success value.
- The wall clock, the time-zone conversion, `WIFI_SSID`, `TIMEZONE`, `get_sntp` and `sntp_restart` are outside the model. They appear only as parameters: the hour and minute, the network and zone names, and the status seen by each poll after the restart.
- Time.InitSntp: it requires that some poll sees `Completed`. The source loop has no bound and spins forever otherwise. Runs that never end are not modelled.
- Handler.SyncTime: it requires a poll that sees `Completed` only when the Sync write succeeds, since only then does `src/handler.rs:158` poll. A failed Sync write returns at `src/handler.rs:156` and is covered for every status sequence. The clock reading taken after the wait is a parameter. The Sync write and the time write take the display lock separately, with the poll unlocked in between (`src/display.rs:161`, `src/handler.rs:156-159`). The model assumes that no other caller, such as the ticker of `src/main.rs:108-114` or another handler, writes to the display in that gap. The facts that Sync is shown while polling, that the time write starts from the Sync display, and that Sync is still shown after a failed time clear all rest on that assumption.
- Time.GetTime: it requires hour < 24 and minute < 60, the range the clock library guarantees. In that range the `as u8` casts never truncate, so truncation is not modelled.

=== FILE: bytes.dfy ===
/** Bytes, the ASCII characters the request handlers look for, and searching a sequence. */
module Bytes {
  import opened Wrappers

  /** Rust's `u8`. */
  newtype uint8 = x: int | 0 <= x < 0x100

  const QUESTION_MARK: uint8 := 0x3F
  const AMPERSAND: uint8 := 0x26
  const PLUS: uint8 := 0x2B
  const COLON: uint8 := 0x3A
  const DIGIT_ZERO: uint8 := 0x30

  /** True when every character of `s` is ASCII. */
  predicate IsAscii(s: string) {
    forall i :: 0 <= i < |s| ==> s[i] as int < 0x80
  }

  /** The UTF-8 bytes of an ASCII string: one byte per character, with the same code. */
  function Ascii(s: string): (r: seq<uint8>)
    requires IsAscii(s)
    ensures |r| == |s|
    ensures forall i :: 0 <= i < |s| ==> r[i] as int == s[i] as int
  {
    seq(|s|, i requires 0 <= i < |s| && IsAscii(s) => s[i] as int as uint8)
  }

  lemma AsciiAppend(a: string, b: string)
    requires IsAscii(a) && IsAscii(b)
    ensures IsAscii(a + b)
    ensures Ascii(a + b) == Ascii(a) + Ascii(b)
  {
    assert forall i :: 0 <= i < |a + b| ==> (a + b)[i] == if i < |a| then a[i] else b[i - |a|];
  }

  /** A character absent from an ASCII string is absent from its bytes. */
  lemma AsciiExcludes(s: string, c: char)
    requires IsAscii(s) && c as int < 0x80 && c !in s
    ensures c as int as uint8 !in Ascii(s)
  {
  }

  /**
   * The position of the first occurrence of `x` in `s`, or `None` when `x`
   * does not occur; `str::find` with a single ASCII character answers this
   * on the UTF-8 bytes of a string.
   */
  function IndexOf<T(==)>(s: seq<T>, x: T): (r: Option<nat>)
    ensures r.Some? ==> r.value < |s| && s[r.value] == x && x !in s[..r.value]
    ensures r.None? <==> x !in s
  {
    if |s| == 0 then None
    else if s[0] == x then Some(0)
    else match IndexOf(s[1..], x)
      case None => None
      case Some(i) =>
        assert s[..i + 1] == [s[0]] + s[1..][..i];
        Some(i + 1)
  }
}

=== FILE: decimal.dfy ===
/**
 * Decimal text for `u8`: the `Display` formatting of an integer (used by
 * the status page) and `u8::from_str` (used by the brightness handler).
 */
module Decimal {
  import opened Wrappers
  import opened Bytes

  predicate IsDigit(b: uint8) {
    DIGIT_ZERO <= b <= DIGIT_ZERO + 9
  }

  predicate AllDigits(ds: seq<uint8>) {
    forall i :: 0 <= i < |ds| ==> IsDigit(ds[i])
  }

  function DigitValue(b: uint8): (v: nat)
    requires IsDigit(b)
    ensures v < 10
  {
    (b - DIGIT_ZERO) as nat
  }

  /** The ASCII digit showing `v`. */
  function DigitByte(v: nat): (b: uint8)
    requires v < 10
    ensures IsDigit(b) && DigitValue(b) == v
  {
    DIGIT_ZERO + v as uint8
  }

  /** Reading `ds` left to right, starting from the number `acc` already read. */
  function Fold(acc: nat, ds: seq<uint8>): (n: nat)
    requires AllDigits(ds)
    decreases |ds|
  {
    if |ds| == 0 then acc else Fold(acc * 10 + DigitValue(ds[0]), ds[1..])
  }

  /** The number a string of decimal digits denotes. */
  function ValueOf(ds: seq<uint8>): (n: nat)
    requires AllDigits(ds)
  {
    Fold(0, ds)
  }

  /**
   * Reference definition of what `u8::from_str` accepts: an optional `+`,
   * then one or more decimal digits, denoting `v` with `v <= 255`.
   */
  predicate IsU8Literal(s: seq<uint8>, v: nat) {
    var ds := if 0 < |s| && s[0] == PLUS then s[1..] else s;
    0 < |ds| && AllDigits(ds) && ValueOf(ds) == v && v <= 255
  }

  /**
   * `u8::from_str`: an empty string fails; a lone sign fails; one leading `+`
   * is skipped (a `-` is not, so it fails as a non-digit); then digits are
   * accumulated with checked arithmetic.
   */
  function ParseU8(s: seq<uint8>): (r: Option<uint8>)
    ensures r.Some? ==> IsU8Literal(s, r.value as nat)
    ensures r.None? ==> forall v :: !IsU8Literal(s, v)
  {
    if |s| == 0 then None
    else if s[0] == PLUS && |s| == 1 then None
    else
      var ds := if s[0] == PLUS then s[1..] else s;
      AccumulateSpec(ds, 0);
      Accumulate(ds, 0)
  }

  /** The loop of `from_str_radix`: one digit at a time, `checked_mul` then `checked_add`. */
  function Accumulate(ds: seq<uint8>, acc: uint8): (r: Option<uint8>)
  {
    if |ds| == 0 then Some(acc)
    else if !IsDigit(ds[0]) then None
    else
      var mul := acc as int * 10;
      if mul > 255 then None
      else if mul + DigitValue(ds[0]) > 255 then None
      else Accumulate(ds[1..], (mul + DigitValue(ds[0])) as uint8)
  }

  lemma {:induction false} FoldGrows(acc: nat, ds: seq<uint8>)
    requires AllDigits(ds)
    ensures Fold(acc, ds) >= acc
    decreases |ds|
  {
    if |ds| > 0 {
      FoldGrows(acc * 10 + DigitValue(ds[0]), ds[1..]);
    }
  }

  /** The checked loop fails exactly when a byte is not a digit or the value exceeds 255. */
  lemma {:induction false} AccumulateSpec(ds: seq<uint8>, acc: uint8)
    ensures Accumulate(ds, acc) ==
      if AllDigits(ds) && Fold(acc as nat, ds) <= 255 then Some(Fold(acc as nat, ds) as uint8) else None
    decreases |ds|
  {
    if |ds| > 0 && IsDigit(ds[0]) {
      var next := acc as int * 10 + DigitValue(ds[0]);
      assert AllDigits(ds) <==> AllDigits(ds[1..]) by {
        assert forall i :: 0 <= i < |ds[1..]| ==> ds[1..][i] == ds[i + 1];
      }
      if next <= 255 {
        AccumulateSpec(ds[1..], next as uint8);
      } else if AllDigits(ds) {
        FoldGrows(next, ds[1..]);
      }
    }
  }

  /** `Display` for an unsigned integer: its decimal digits, with no leading zero. */
  function DecimalText(n: nat): (r: seq<uint8>)
    ensures 0 < |r| && AllDigits(r)
    ensures r[0] == DIGIT_ZERO ==> n == 0
  {
    if n < 10 then [DigitByte(n)] else DecimalText(n / 10) + [DigitByte(n % 10)]
  }

  lemma {:induction false} FoldSnoc(acc: nat, ds: seq<uint8>, d: uint8)
    requires AllDigits(ds) && IsDigit(d)
    ensures AllDigits(ds + [d])
    ensures Fold(acc, ds + [d]) == Fold(acc, ds) * 10 + DigitValue(d)
    decreases |ds|
  {
    if |ds| > 0 {
      assert (ds + [d])[1..] == ds[1..] + [d];
      FoldSnoc(acc * 10 + DigitValue(ds[0]), ds[1..], d);
    }
  }

  /** The formatted text denotes the number formatted. */
  lemma {:induction false} DecimalTextValue(n: nat)
    ensures ValueOf(DecimalText(n)) == n
    decreases n
  {
    if n >= 10 {
      DecimalTextValue(n / 10);
      var hi, d := DecimalText(n / 10), DigitByte(n % 10);
      assert DecimalText(n) == hi + [d];
      FoldSnoc(0, hi, d);
      assert Fold(0, hi + [d]) == (n / 10) * 10 + n % 10;
    } else {
      assert Fold(0, DecimalText(n)) == Fold(n, []);
    }
  }

  /** Parsing what `Display` prints gives the number back, for every `u8`. */
  lemma ParseDecimalText(n: nat)
    requires n <= 255
    ensures ParseU8(DecimalText(n)) == Some(n as uint8)
  {
    DecimalTextValue(n);
    assert IsU8Literal(DecimalText(n), n);
  }

  /** Texts `u8::from_str` accepts, with the value it reads. */
  lemma ParseU8Accepts()
    ensures ParseU8(Ascii("0")) == Some(0)
    ensures ParseU8(Ascii("1")) == Some(1)
    ensures ParseU8(Ascii("7")) == Some(7)
    ensures ParseU8(Ascii("8")) == Some(8)
    ensures ParseU8(Ascii("+7")) == Some(7)
    ensures ParseU8(Ascii("007")) == Some(7)
    ensures ParseU8(Ascii("255")) == Some(255)
  {
    assert Ascii("+7") == [PLUS, 0x37];
    assert Ascii("+7")[1..] == [0x37];
    assert Accumulate([0x37], 0) == Some(7);
    assert Ascii("255") == [0x32, 0x35, 0x35];
    assert Accumulate([0x35], 25) == Some(255);
  }

  /** Texts `u8::from_str` rejects: too large, signed, sign only, not digits, trailing text, empty. */
  lemma ParseU8Rejects()
    ensures ParseU8(Ascii("256")) == None
    ensures ParseU8(Ascii("-1")) == None
    ensures ParseU8(Ascii("+")) == None
    ensures ParseU8(Ascii("abc")) == None
    ensures ParseU8(Ascii("5&x")) == None
    ensures ParseU8([]) == None
  {
  }
}

=== FILE: display.dfy ===
/**
 * The display layer of `src/display.rs`: fixed message frames, the time
 * frame, and the device operations built from the TM1637 transport calls.
 */
module Display {
  import opened Wrappers
  import opened Bytes
  import opened Utils
  import opened Time

  /** What one write puts on the four positions of the display. */
  type Frame = f: seq<bv8> | |f| == 4 witness [0, 0, 0, 0]

  /** Fixed status messages. */
  datatype Message = Init | Sync

  /**
   * `as_bytes`: the segment patterns spelling the message. No position
   * carries the separator bit, so a message never shows the colon.
   */
  function MessageBytes(m: Message): (f: Frame)
    ensures forall i :: 0 <= i < 4 ==> f[i] & SEPARATOR == 0
  {
    match m
    case Init => [0x06, 0x54, 0x04, 0x78] // i n i t
    case Sync => [0x6D, 0x6E, 0x37, 0x39] // s y n c
  }

  /** Reads a frame back as the message it spells, if any. */
  function MessageOf(f: Frame): (r: Option<Message>)
    ensures r.Some? ==> MessageBytes(r.value) == f
  {
    if f == [0x06, 0x54, 0x04, 0x78] then Some(Init)
    else if f == [0x6D, 0x6E, 0x37, 0x39] then Some(Sync)
    else None
  }

  /** Every message frame reads back as its message, so the two frames differ. */
  lemma MessageRoundTrip(m: Message)
    ensures MessageOf(MessageBytes(m)) == Some(m)
    ensures MessageBytes(m) != MessageBytes(if m == Init then Sync else Init)
  {
  }

  /** The transport operations of the TM1637 driver; each one can fail. */
  datatype DeviceCall = InitCall | BrightnessCall | ClearCall | PrintRawCall | PrintHexCall

  /** The error a failed transport call propagates (`AppError::Display`). */
  datatype AppError = Display(call: DeviceCall)

  /**
   * What was printed since the last clear: raw segment patterns, or bytes
   * handed to the driver's hexadecimal printer, whose glyphs are not modelled.
   */
  datatype Print = Raw(pos: nat, segments: seq<bv8>) | Hex(pos: nat, digits: seq<uint8>)

  /** The observable state of the display. */
  datatype Device = Device(initialized: bool, brightness: uint8, printed: seq<Print>)

  /** The device after an operation, and what the operation returned. */
  datatype Outcome<T> = Outcome(device: Device, result: Result<T, AppError>)

  /**
   * One transport call: it fails when listed in `failing`, leaving the device
   * as it was; otherwise the device becomes `next`.
   */
  function Call(d: Device, call: DeviceCall, failing: set<DeviceCall>, next: Device): (o: Outcome<()>)
    ensures o.result.Ok? <==> call !in failing
    ensures o.result.Err? ==> o.device == d && o.result.error == Display(call)
    ensures o.result.Ok? ==> o.device == next
  {
    if call in failing then Outcome(d, Err(Display(call))) else Outcome(next, Ok(()))
  }

  function InitChip(d: Device, failing: set<DeviceCall>): (o: Outcome<()>) {
    Call(d, InitCall, failing, d.(initialized := true))
  }

  function SetLevel(d: Device, level: uint8, failing: set<DeviceCall>): (o: Outcome<()>) {
    Call(d, BrightnessCall, failing, d.(brightness := level))
  }

  function Clear(d: Device, failing: set<DeviceCall>): (o: Outcome<()>) {
    Call(d, ClearCall, failing, d.(printed := []))
  }

  function PrintRaw(d: Device, pos: nat, segments: seq<bv8>, failing: set<DeviceCall>): (o: Outcome<()>) {
    Call(d, PrintRawCall, failing, d.(printed := d.printed + [Raw(pos, segments)]))
  }

  function PrintHex(d: Device, pos: nat, digits: seq<uint8>, failing: set<DeviceCall>): (o: Outcome<()>) {
    Call(d, PrintHexCall, failing, d.(printed := d.printed + [Hex(pos, digits)]))
  }

  /**
   * `write`: clears the display, then prints the frame raw from position 0,
   * both under one lock. It succeeds exactly when neither call fails, and then
   * the display shows the frame and nothing else, whatever it showed before.
   * A failed clear returns its error before anything is printed.
   */
  function Write(d: Device, m: Frame, failing: set<DeviceCall>): (o: Outcome<()>)
    ensures o.result.Ok? <==> ClearCall !in failing && PrintRawCall !in failing
    ensures o.result.Ok? ==> o.device.printed == [Raw(0, m)]
    ensures ClearCall in failing ==> o == Outcome(d, Err(Display(ClearCall)))
    ensures ClearCall !in failing && PrintRawCall in failing ==> o == Outcome(d.(printed := []), Err(Display(PrintRawCall)))
    ensures o.device.initialized == d.initialized && o.device.brightness == d.brightness
  {
    var cleared := Clear(d, failing);
    if cleared.result.Err? then cleared
    else PrintRaw(cleared.device, 0, m, failing)
  }

  /** Writing a frame twice leaves the device and the result as writing it once. */
  lemma WriteIdempotent(d: Device, m: Frame, failing: set<DeviceCall>)
    ensures Write(Write(d, m, failing).device, m, failing) == Write(d, m, failing)
  {
  }

  /** A successful write does not depend on what the display showed before. */
  lemma WriteForgetsPrevious(d1: Device, d2: Device, m: Frame, failing: set<DeviceCall>)
    requires d1.initialized == d2.initialized && d1.brightness == d2.brightness
    requires Write(d1, m, failing).result.Ok?
    ensures Write(d1, m, failing) == Write(d2, m, failing)
  {
  }

  /** The brightness `init_display` sets. */
  const DEFAULT_BRIGHTNESS: uint8 := 5

  /**
   * `init_display`: initializes the chip, sets brightness 5 and writes the
   * Init frame, stopping at the first failing call. On success the device is
   * initialized, at brightness 5, showing the Init message, whatever its
   * earlier state. A failing call returns its own error and keeps the
   * effects of the calls before it; a failed chip initialization changes
   * nothing.
   */
  function InitDisplay(d: Device, failing: set<DeviceCall>): (o: Outcome<()>)
    ensures o.result.Ok? <==>
      InitCall !in failing && BrightnessCall !in failing && ClearCall !in failing && PrintRawCall !in failing
    ensures o.result.Ok? ==> o.device == Device(true, DEFAULT_BRIGHTNESS, [Raw(0, MessageBytes(Init))])
    ensures o.result.Ok? ==> ShownMessage(o.device) == Some(Init)
    ensures InitCall in failing ==> o == Outcome(d, Err(Display(InitCall)))
    ensures InitCall !in failing ==> o.device.initialized
    ensures InitCall !in failing && BrightnessCall in failing ==>
      o == Outcome(d.(initialized := true), Err(Display(BrightnessCall)))
    ensures InitCall !in failing && BrightnessCall !in failing && ClearCall in failing ==>
      o == Outcome(d.(initialized := true, brightness := DEFAULT_BRIGHTNESS), Err(Display(ClearCall)))
    ensures InitCall !in failing && BrightnessCall !in failing && ClearCall !in failing && PrintRawCall in failing ==>
      o == Outcome(Device(true, DEFAULT_BRIGHTNESS, []), Err(Display(PrintRawCall)))
  {
    var started := InitChip(d, failing);
    if started.result.Err? then started
    else
      var dimmed := SetLevel(started.device, DEFAULT_BRIGHTNESS, failing);
      if dimmed.result.Err? then dimmed
      else Write(dimmed.device, MessageBytes(Init), failing)
  }

  /**
   * The frame `update_display_time` writes: the table pattern of each digit,
   * with the separator bit set on position 1 and clear everywhere else.
   */
  function TimeFrame(t: seq<uint8>): (f: Frame)
    requires AreDigits(t)
    ensures f[1] & SEPARATOR == SEPARATOR
    ensures f[0] & SEPARATOR == 0 && f[2] & SEPARATOR == 0 && f[3] & SEPARATOR == 0
  {
    SeparatorClear(t[0] as nat);
    SeparatorClear(t[2] as nat);
    SeparatorClear(t[3] as nat);
    [DisplayDigit[t[0]], DisplayDigit[t[1]] | SEPARATOR, DisplayDigit[t[2]], DisplayDigit[t[3]]]
  }

  /** A time frame reads back as the digits it was built from. */
  lemma TimeFrameRoundTrip(t: seq<uint8>)
    requires AreDigits(t)
    ensures DecodeTimeFrame(TimeFrame(t)) == Some(t)
  {
    var f, g := TimeFrame(t), Glyphs(t);
    SeparatorClear(t[1] as nat);
    SeparatorRemoved(g[1]);
    var plain := f[1 := f[1] & !SEPARATOR];
    assert plain[0] == g[0] && plain[1] == g[1] && plain[2] == g[2] && plain[3] == g[3];
    assert plain == g;
    assert DecodeTimeFrame(f) == DecodeDigits(plain);
    DecodeGlyphs(t);
  }

  lemma SeparatorRemoved(p: bv8)
    requires p & SEPARATOR == 0
    ensures (p | SEPARATOR) & !SEPARATOR == p
  {
  }

  /**
   * Reads a frame back as the four digits it shows: position 1 must carry
   * the separator, and every pattern with the separator removed from
   * position 1 must be a table entry.
   */
  function DecodeTimeFrame(f: Frame): (r: Option<seq<uint8>>)
    ensures r.Some? ==> AreDigits(r.value)
  {
    if f[1] & SEPARATOR == SEPARATOR then DecodeDigits(f[1 := f[1] & !SEPARATOR]) else None
  }

  /** Only time frames decode as time: exactly the frames `TimeFrame` produces. */
  lemma DecodeTimeFrameInverse(f: Frame)
    requires DecodeTimeFrame(f).Some?
    ensures TimeFrame(DecodeTimeFrame(f).value) == f
  {
    var plain := f[1 := f[1] & !SEPARATOR];
    assert DecodeTimeFrame(f) == DecodeDigits(plain);
    DecodeDigitsInverse(plain);
    SeparatorPutBack(f, DecodeTimeFrame(f).value);
  }

  lemma SeparatorPutBack(f: Frame, t: seq<uint8>)
    requires AreDigits(t)
    requires f[1] & SEPARATOR == SEPARATOR
    requires Glyphs(t) == f[1 := f[1] & !SEPARATOR]
    ensures TimeFrame(t) == f
  {
    SeparatorRestored(f[1]);
    var h := TimeFrame(t);
    assert h[0] == f[0];
    assert h[1] == f[1];
    assert h[2] == f[2] && h[3] == f[3];
  }

  lemma SeparatorRestored(p: bv8)
    requires p & SEPARATOR == SEPARATOR
    ensures (p & !SEPARATOR) | SEPARATOR == p
  {
  }

  /** Neither message frame can be read as a time. */
  lemma MessagesAreNotTimes(m: Message)
    ensures DecodeTimeFrame(MessageBytes(m)) == None
  {
  }

  /** No time frame spells a message. */
  lemma TimeFrameIsNoMessage(t: seq<uint8>)
    requires AreDigits(t)
    ensures MessageOf(TimeFrame(t)) == None
  {
    TimeFrameRoundTrip(t);
    MessagesAreNotTimes(Init);
    MessagesAreNotTimes(Sync);
  }

  /** The single frame the display shows, if exactly one frame was printed raw at 0 since the clear. */
  function ShownFrame(d: Device): (f: Option<Frame>) {
    if |d.printed| == 1 && d.printed[0].Raw? && d.printed[0].pos == 0 && |d.printed[0].segments| == 4
    then Some(d.printed[0].segments)
    else None
  }

  /** The time the display shows as hour and minute, if it shows a time frame. */
  function ShownTime(d: Device): (r: Option<(nat, nat)>) {
    match ShownFrame(d)
    case None => None
    case Some(f) =>
      match DecodeTimeFrame(f)
      case None => None
      case Some(t) => Some((HourOf(t), MinuteOf(t)))
  }

  /** The message the display shows, if it shows a message frame. */
  function ShownMessage(d: Device): (r: Option<Message>) {
    match ShownFrame(d)
    case None => None
    case Some(f) => MessageOf(f)
  }

  /** After a successful write of a time frame, the display shows that time and no message. */
  lemma WrittenTimeShown(d: Device, t: seq<uint8>, failing: set<DeviceCall>)
    requires AreDigits(t)
    ensures Write(d, TimeFrame(t), failing).result.Ok? ==>
      var shown := Write(d, TimeFrame(t), failing).device;
      ShownTime(shown) == Some((HourOf(t), MinuteOf(t))) && ShownMessage(shown) == None
  {
    var o := Write(d, TimeFrame(t), failing);
    if o.result.Ok? {
      assert ShownFrame(o.device) == Some(TimeFrame(t));
      TimeFrameRoundTrip(t);
      TimeFrameIsNoMessage(t);
    }
  }

  /**
   * `update_display_time` with the clock reading as parameters: writes the
   * time frame of the reading. On success the display shows that hour and
   * minute, and no message.
   */
  function UpdateDisplayTime(d: Device, hour: nat, minute: nat, failing: set<DeviceCall>): (o: Outcome<()>)
    requires hour < 24 && minute < 60
    ensures o.result.Ok? <==> ClearCall !in failing && PrintRawCall !in failing
    ensures o.result.Ok? ==> ShownTime(o.device) == Some((hour, minute))
    ensures o.result.Ok? ==> ShownMessage(o.device) == None
    ensures ClearCall in failing ==> o == Outcome(d, Err(Display(ClearCall)))
    ensures ClearCall !in failing && PrintRawCall in failing ==> o == Outcome(d.(printed := []), Err(Display(PrintRawCall)))
    ensures o.device.initialized == d.initialized && o.device.brightness == d.brightness
  {
    var t := GetTime(hour, minute);
    WrittenTimeShown(d, t, failing);
    Write(d, TimeFrame(t), failing)
  }
}

=== FILE: handler.dfy ===
/**
 * The HTTP request handlers of `src/handler.rs`, as transitions of the
 * display device. Each locked region is one sequential step; `sync_time`
 * has two, with the SNTP poll unlocked between them, and the model assumes
 * no other caller writes to the display in between.
 */
module Handler {
  import opened Wrappers
  import opened Bytes
  import opened Decimal
  import opened Utils
  import opened Time
  import opened Display

  const DIGITS_INSERTED: seq<uint8> := Ascii("Digits inserted!")
  const BRIGHTNESS_UPDATED: seq<uint8> := Ascii("Brightness Updated!")
  const TIME_SYNCED: seq<uint8> := Ascii("Time synced successfully!")

  /** The state a successful start-up leaves: an initialized device at a brightness in 1..=7. */
  predicate Ready(d: Device) {
    d.initialized && 1 <= d.brightness <= 7
  }

  /** A successful `init_display` leaves the device ready for the handlers. */
  lemma StartupMakesReady(d: Device, failing: set<DeviceCall>)
    requires InitDisplay(d, failing).result.Ok?
    ensures Ready(InitDisplay(d, failing).device)
  {
  }

  /** Answers `body` when the device work succeeded, and its error otherwise. */
  function Respond(o: Outcome<()>, body: seq<uint8>): (r: Outcome<seq<uint8>>)
    ensures r.device == o.device
    ensures r.result.Ok? <==> o.result.Ok?
    ensures r.result.Ok? ==> r.result.value == body
    ensures r.result.Err? ==> r.result.error == o.result.error
  {
    match o.result
    case Ok(_) => Outcome(o.device, Ok(body))
    case Err(e) => Outcome(o.device, Err(e))
  }

  // ---------------------------------------------------------------- status

  const SSID_LABEL: seq<uint8> := Ascii("<p><strong>Wi-Fi SSID:</strong> ")
  const PARAGRAPH_END: seq<uint8> := Ascii("</p>")
  /** The line break and indentation the status text carries between paragraphs. */
  const LINE_BREAK: seq<uint8> := Ascii("\n        ")
  const TIME_ZONE_LABEL: seq<uint8> := PARAGRAPH_END + LINE_BREAK + Ascii("<p><strong>Time Zone:</strong> ")
  const TIME_LABEL: seq<uint8> := PARAGRAPH_END + LINE_BREAK + Ascii("<p><strong>Current Time:</strong> ")

  /**
   * The four digits as `HH:MM`, each digit printed with `Display`: the text
   * reads back as the hour and minute the digits denote.
   */
  function ClockText(t: seq<uint8>): (r: seq<uint8>)
    requires AreDigits(t)
    ensures |r| == 5 && r[2] == COLON
    ensures ReadClock(r) == Some((HourOf(t), MinuteOf(t)))
  {
    var r := DecimalText(t[0] as nat) + DecimalText(t[1] as nat) + [COLON]
      + DecimalText(t[2] as nat) + DecimalText(t[3] as nat);
    assert r == [DigitByte(t[0] as nat), DigitByte(t[1] as nat), COLON, DigitByte(t[2] as nat), DigitByte(t[3] as nat)];
    r
  }

  /** Reads `HH:MM` text back as an hour and a minute. */
  function ReadClock(s: seq<uint8>): (r: Option<(nat, nat)>) {
    if |s| == 5 && IsDigit(s[0]) && IsDigit(s[1]) && s[2] == COLON && IsDigit(s[3]) && IsDigit(s[4])
    then Some((10 * DigitValue(s[0]) + DigitValue(s[1]), 10 * DigitValue(s[3]) + DigitValue(s[4])))
    else None
  }

  /** The clock text of a time reads back as that time. */
  lemma ClockTextRoundTrip(hour: nat, minute: nat)
    requires hour < 24 && minute < 60
    ensures ReadClock(ClockText(GetTime(hour, minute))) == Some((hour, minute))
  {
  }

  /**
   * `get_status` with the clock reading, the network name and the time zone
   * name as parameters: the status markup, which ends with the current
   * time as `HH:MM` inside the last paragraph.
   */
  function GetStatus(ssid: seq<uint8>, timeZone: seq<uint8>, hour: nat, minute: nat): (r: seq<uint8>)
    requires hour < 24 && minute < 60
    ensures |r| >= 9 && ReadClock(r[|r| - 9..|r| - 4]) == Some((hour, minute))
    ensures |r| >= |SSID_LABEL| + |ssid|
    ensures r[..|SSID_LABEL|] == SSID_LABEL && r[|SSID_LABEL|..|SSID_LABEL| + |ssid|] == ssid
  {
    var clock := ClockText(GetTime(hour, minute));
    ClockTextRoundTrip(hour, minute);
    var r := SSID_LABEL + ssid + TIME_ZONE_LABEL + timeZone + TIME_LABEL + clock + PARAGRAPH_END;
    assert r[|r| - 9..|r| - 4] == clock;
    assert r[..|SSID_LABEL|] == SSID_LABEL;
    assert r[|SSID_LABEL|..|SSID_LABEL| + |ssid|] == ssid;
    r
  }

  // ------------------------------------------------------------ set digits

  /**
   * `set_digits`: clears the display, then hands the bytes extracted from
   * the URI to the driver's hexadecimal printer at position 0, both under
   * one lock. On success the display holds exactly that one print.
   */
  function SetDigits(d: Device, uri: seq<uint8>, failing: set<DeviceCall>): (o: Outcome<seq<uint8>>)
    ensures o.result.Ok? <==> ClearCall !in failing && PrintHexCall !in failing
    ensures o.result.Ok? ==> o.result.value == DIGITS_INSERTED
    ensures o.result.Ok? ==>
      |o.device.printed| == 1 && o.device.printed[0].Hex? && o.device.printed[0].pos == 0
      && ExtractedFrom(uri, o.device.printed[0].digits)
    ensures ClearCall in failing ==> o == Outcome(d, Err(Display(ClearCall)))
    ensures ClearCall !in failing && PrintHexCall in failing ==> o == Outcome(d.(printed := []), Err(Display(PrintHexCall)))
    ensures o.device.initialized == d.initialized && o.device.brightness == d.brightness
  {
    var digits := FindDigitsInUrl(uri);
    var cleared := Clear(d, failing);
    var printed := if cleared.result.Err? then cleared else PrintHex(cleared.device, 0, digits, failing);
    Respond(printed, DIGITS_INSERTED)
  }

  // -------------------------------------------------------- set brightness

  /** Reference definition: everything after the first `?` of `uri` is a `u8` literal of value `v`. */
  ghost predicate AsksForLevel(uri: seq<uint8>, v: nat) {
    exists q: nat :: q < |uri| && uri[q] == QUESTION_MARK && QUESTION_MARK !in uri[..q] && IsU8Literal(uri[q + 1..], v)
  }

  /**
   * The level the URI asks for: everything after the first `?`, read as a
   * `u8`. A URI without `?` asks for nothing; a level read is one the
   * reference definition describes.
   */
  function RequestedLevel(uri: seq<uint8>): (r: Option<uint8>)
    ensures QUESTION_MARK !in uri ==> r.None?
    ensures r.Some? ==> AsksForLevel(uri, r.value as nat)
  {
    match IndexOf(uri, QUESTION_MARK)
    case None => None
    case Some(q) =>
      var r := ParseU8(uri[q + 1..]);
      assert r.Some? ==> uri[q] == QUESTION_MARK && QUESTION_MARK !in uri[..q] && IsU8Literal(uri[q + 1..], r.value as nat);
      r
  }

  /**
   * `set_brightness`: applies the requested level when it is in 1..=7 and
   * ignores it otherwise; it answers the same text in both cases. Only the
   * brightness can change, and a brightness in 1..=7 stays in 1..=7.
   */
  function SetBrightness(d: Device, uri: seq<uint8>, failing: set<DeviceCall>): (o: Outcome<seq<uint8>>)
    ensures o.result.Ok? ==> o.result.value == BRIGHTNESS_UPDATED
    ensures o.result.Err? ==> o == Outcome(d, Err(Display(BrightnessCall)))
    ensures o.device.printed == d.printed && o.device.initialized == d.initialized
    ensures o.device.brightness == d.brightness || 1 <= o.device.brightness <= 7
    ensures Ready(d) ==> Ready(o.device)
  {
    match RequestedLevel(uri)
    case Some(level) =>
      if 1 <= level <= 7 then Respond(SetLevel(d, level, failing), BRIGHTNESS_UPDATED)
      else Outcome(d, Ok(BRIGHTNESS_UPDATED))
    case None => Outcome(d, Ok(BRIGHTNESS_UPDATED))
  }

  /** The level `RequestedLevel` reads is exactly the one the reference definition describes. */
  lemma RequestedLevelSpec(uri: seq<uint8>, v: nat)
    ensures v <= 255 && RequestedLevel(uri) == Some(v as uint8) <==> AsksForLevel(uri, v)
  {
    match IndexOf(uri, QUESTION_MARK)
    case None =>
    case Some(q) =>
      if AsksForLevel(uri, v) {
        var q': nat :| q' < |uri| && uri[q'] == QUESTION_MARK && QUESTION_MARK !in uri[..q'] && IsU8Literal(uri[q' + 1..], v);
        QueryStartUnique(uri, q, q');
      }
  }

  /** A request whose query is a `u8` literal in 1..=7 sets that brightness, unless the transport fails. */
  lemma BrightnessApplied(d: Device, uri: seq<uint8>, failing: set<DeviceCall>, v: nat)
    requires AsksForLevel(uri, v) && 1 <= v <= 7
    ensures SetBrightness(d, uri, failing) ==
      if BrightnessCall in failing then Outcome(d, Err(Display(BrightnessCall)))
      else Outcome(d.(brightness := v as uint8), Ok(BRIGHTNESS_UPDATED))
  {
    RequestedLevelSpec(uri, v);
  }

  /** Any other request leaves the device as it was and still answers success. */
  lemma BrightnessIgnored(d: Device, uri: seq<uint8>, failing: set<DeviceCall>)
    requires forall v: nat :: AsksForLevel(uri, v) ==> v < 1 || 7 < v
    ensures SetBrightness(d, uri, failing) == Outcome(d, Ok(BRIGHTNESS_UPDATED))
  {
    match RequestedLevel(uri)
    case None =>
    case Some(level) =>
      RequestedLevelSpec(uri, level as nat);
  }

  /** Queries of a request to a path without `?`, read after the first `?`. */
  lemma RequestedLevelOfQuery(path: seq<uint8>, query: seq<uint8>)
    requires QUESTION_MARK !in path
    ensures RequestedLevel(path + [QUESTION_MARK] + query) == ParseU8(query)
  {
    var uri := path + [QUESTION_MARK] + query;
    assert uri[..|path|] == path;
    assert uri[|path| + 1..] == query;
    QueryStartUnique(uri, IndexOf(uri, QUESTION_MARK).value, |path|);
  }

  /** The queries `0` and `8` are numbers outside 1..=7: ignored with a success answer. */
  lemma BrightnessOutOfRangeExamples(d: Device, path: seq<uint8>, failing: set<DeviceCall>)
    requires QUESTION_MARK !in path
    ensures SetBrightness(d, path + [QUESTION_MARK] + [0x30], failing) == Outcome(d, Ok(BRIGHTNESS_UPDATED))
    ensures SetBrightness(d, path + [QUESTION_MARK] + [0x38], failing) == Outcome(d, Ok(BRIGHTNESS_UPDATED))
  {
    ParseU8Accepts();
    assert Ascii("0") == [0x30] && Ascii("8") == [0x38];
    IgnoredQuery(d, path, [0x30], failing);
    IgnoredQuery(d, path, [0x38], failing);
  }

  /** The queries `abc` and `5&x`, and an empty one, are no `u8`: ignored with a success answer. */
  lemma BrightnessNotNumberExamples(d: Device, path: seq<uint8>, failing: set<DeviceCall>)
    requires QUESTION_MARK !in path
    ensures SetBrightness(d, path + [QUESTION_MARK] + [0x61, 0x62, 0x63], failing) == Outcome(d, Ok(BRIGHTNESS_UPDATED))
    ensures SetBrightness(d, path + [QUESTION_MARK] + [0x35, AMPERSAND, 0x78], failing) == Outcome(d, Ok(BRIGHTNESS_UPDATED))
    ensures SetBrightness(d, path + [QUESTION_MARK], failing) == Outcome(d, Ok(BRIGHTNESS_UPDATED))
  {
    ParseU8Rejects();
    assert Ascii("abc") == [0x61, 0x62, 0x63] && Ascii("5&x") == [0x35, AMPERSAND, 0x78];
    IgnoredQuery(d, path, [0x61, 0x62, 0x63], failing);
    IgnoredQuery(d, path, [0x35, AMPERSAND, 0x78], failing);
    IgnoredQuery(d, path, [], failing);
    assert path + [QUESTION_MARK] + [] == path + [QUESTION_MARK];
  }

  lemma IgnoredQuery(d: Device, path: seq<uint8>, query: seq<uint8>, failing: set<DeviceCall>)
    requires QUESTION_MARK !in path
    requires ParseU8(query).None? || !(1 <= ParseU8(query).value <= 7)
    ensures SetBrightness(d, path + [QUESTION_MARK] + query, failing) == Outcome(d, Ok(BRIGHTNESS_UPDATED))
  {
    RequestedLevelOfQuery(path, query);
  }

  /** The queries `1` and `7` set the brightness they name. */
  lemma BrightnessAcceptedExamples(d: Device, path: seq<uint8>, failing: set<DeviceCall>)
    requires QUESTION_MARK !in path && BrightnessCall !in failing
    ensures SetBrightness(d, path + [QUESTION_MARK] + [0x31], failing).device == d.(brightness := 1)
    ensures SetBrightness(d, path + [QUESTION_MARK] + [0x37], failing).device == d.(brightness := 7)
  {
    ParseU8Accepts();
    assert Ascii("1") == [0x31] && Ascii("7") == [0x37];
    AppliedQuery(d, path, [0x31], failing);
    AppliedQuery(d, path, [0x37], failing);
  }

  /** A leading `+` and leading zeros are accepted: `+7` and `007` set brightness 7. */
  lemma BrightnessPaddedExamples(d: Device, path: seq<uint8>, failing: set<DeviceCall>)
    requires QUESTION_MARK !in path && BrightnessCall !in failing
    ensures SetBrightness(d, path + [QUESTION_MARK] + [PLUS, 0x37], failing).device == d.(brightness := 7)
    ensures SetBrightness(d, path + [QUESTION_MARK] + [0x30, 0x30, 0x37], failing).device == d.(brightness := 7)
  {
    ParseU8Accepts();
    assert Ascii("+7") == [PLUS, 0x37] && Ascii("007") == [0x30, 0x30, 0x37];
    AppliedQuery(d, path, [PLUS, 0x37], failing);
    AppliedQuery(d, path, [0x30, 0x30, 0x37], failing);
  }

  lemma AppliedQuery(d: Device, path: seq<uint8>, query: seq<uint8>, failing: set<DeviceCall>)
    requires QUESTION_MARK !in path && BrightnessCall !in failing
    requires ParseU8(query).Some? && 1 <= ParseU8(query).value <= 7
    ensures SetBrightness(d, path + [QUESTION_MARK] + query, failing) == Outcome(d.(brightness := ParseU8(query).value), Ok(BRIGHTNESS_UPDATED))
  {
    RequestedLevelOfQuery(path, query);
  }

  // ------------------------------------------------------------- sync time

  /**
   * `sync_time`, after `sntp_restart`: writes the Sync frame, polls the SNTP
   * status until it reports `Completed`, then writes the time frame of the
   * clock reading taken at that point. `status(k)` is the status seen by the
   * k-th poll after the restart; `failing` and `laterFailing` are the
   * transport calls that fail during the first and the second write.
   * `syncing` is the device while polling, `polls` the poll that saw
   * `Completed`. Success is answered only after that poll, and the display
   * then shows the time, not the Sync message. A failed Sync write returns
   * before any poll, so only runs past it need a poll that sees `Completed`.
   */
  method SyncTime(d: Device, status: nat -> SyncStatus, hour: nat, minute: nat,
                  failing: set<DeviceCall>, laterFailing: set<DeviceCall>)
    returns (syncing: Device, polls: nat, o: Outcome<seq<uint8>>)
    requires ClearCall !in failing && PrintRawCall !in failing ==> exists k: nat :: status(k) == Completed
    requires hour < 24 && minute < 60
    ensures o.result.Ok? <==>
      ClearCall !in failing && PrintRawCall !in failing && ClearCall !in laterFailing && PrintRawCall !in laterFailing
    ensures o.result.Ok? ==> o.result.value == TIME_SYNCED
    ensures ClearCall !in failing && PrintRawCall !in failing ==> ShownMessage(syncing) == Some(Sync)
    ensures ClearCall !in failing && PrintRawCall !in failing ==>
      status(polls) == Completed && forall j :: 0 <= j < polls ==> status(j) != Completed
    ensures o.result.Ok? ==> ShownTime(o.device) == Some((hour, minute)) && ShownMessage(o.device) == None
    ensures ClearCall in failing ==> o == Outcome(d, Err(Display(ClearCall)))
    ensures ClearCall !in failing && PrintRawCall in failing ==> o == Outcome(d.(printed := []), Err(Display(PrintRawCall)))
    ensures ClearCall !in failing && PrintRawCall !in failing && ClearCall in laterFailing ==>
      o == Outcome(syncing, Err(Display(ClearCall))) && ShownMessage(o.device) == Some(Sync)
    ensures ClearCall !in failing && PrintRawCall !in failing && ClearCall !in laterFailing && PrintRawCall in laterFailing ==>
      o.device.printed == [] && o.result == Err(Display(PrintRawCall))
    ensures o.device.initialized == d.initialized && o.device.brightness == d.brightness
  {
    var announced := Write(d, MessageBytes(Sync), failing);
    syncing := announced.device;
    if announced.result.Err? {
      polls := 0;
      o := Respond(announced, TIME_SYNCED);
      return;
    }
    MessageRoundTrip(Sync);
    polls := InitSntp(status);
    var updated := UpdateDisplayTime(syncing, hour, minute, laterFailing);
    o := Respond(updated, TIME_SYNCED);
  }
}

=== FILE: time.dfy ===
/** Time-to-digits decomposition and the SNTP wait of `src/time.rs`. */
module Time {
  import opened Bytes
  import opened Utils

  /** The status the SNTP client reports. */
  datatype SyncStatus = Reset | Completed | InProgress

  /**
   * Four digits that a wall-clock time can produce: each below 10, the
   * hour part below 24 and the minute tens below 6.
   */
  predicate IsTimeDigits(t: seq<uint8>) {
    AreDigits(t) && HourOf(t) < 24 && t[2] <= 5
  }

  /** The hour the first two digits denote. */
  function HourOf(t: seq<uint8>): (h: nat)
    requires |t| == 4
  {
    10 * t[0] as nat + t[1] as nat
  }

  /** The minute the last two digits denote. */
  function MinuteOf(t: seq<uint8>): (m: nat)
    requires |t| == 4
  {
    10 * t[2] as nat + t[3] as nat
  }

  /**
   * `get_time` with the clock reading as parameters: the tens and units of
   * the hour, then of the minute. The digits read back as the same time.
   */
  function GetTime(hour: nat, minute: nat): (t: seq<uint8>)
    requires hour < 24 && minute < 60
    ensures IsTimeDigits(t)
    ensures t[0] <= 2
    ensures HourOf(t) == hour && MinuteOf(t) == minute
  {
    [(hour / 10) as uint8, (hour % 10) as uint8, (minute / 10) as uint8, (minute % 10) as uint8]
  }

  /** Every valid digit quadruple is the decomposition of the time it reads as. */
  lemma GetTimeOnto(t: seq<uint8>)
    requires IsTimeDigits(t)
    ensures MinuteOf(t) < 60
    ensures GetTime(HourOf(t), MinuteOf(t)) == t
  {
  }

  /** Different times give different digits. */
  lemma GetTimeInjective(h1: nat, m1: nat, h2: nat, m2: nat)
    requires h1 < 24 && m1 < 60 && h2 < 24 && m2 < 60
    requires GetTime(h1, m1) == GetTime(h2, m2)
    ensures h1 == h2 && m1 == m2
  {
  }

  lemma GetTimeExamples()
    ensures GetTime(9, 5) == [0, 9, 0, 5]
    ensures GetTime(23, 59) == [2, 3, 5, 9]
    ensures GetTime(0, 0) == [0, 0, 0, 0]
  {
  }

  /**
   * `init_sntp`: busy-polls the client until it reports `Completed`.
   * `status(k)` is the status seen by the k-th poll. The source loop has no
   * bound; the model covers the runs that end, those where some poll sees
   * `Completed`, and returns the index of the poll that ended the wait.
   */
  method InitSntp(status: nat -> SyncStatus) returns (polls: nat)
    requires exists k: nat :: status(k) == Completed
    ensures status(polls) == Completed
    ensures forall j :: 0 <= j < polls ==> status(j) != Completed
  {
    ghost var k: nat :| status(k) == Completed;
    polls := 0;
    while status(polls) != Completed
      invariant polls <= k
      invariant forall j :: 0 <= j < polls ==> status(j) != Completed
      decreases k - polls
    {
      polls := polls + 1;
    }
  }
}

=== FILE: utils.dfy ===
/** The digit table and the query-string extraction of `src/utils.rs`. */
module Utils {
  import opened Wrappers
  import opened Bytes

  /**
   * 7-segment patterns of the digits 0..9: bit 0 is segment a, ..., bit 6
   * segment g; bit 7 is the separator dot and is clear in every entry.
   */
  const DisplayDigit: seq<bv8> := [
    0x3F, // 0
    0x06, // 1
    0x5B, // 2
    0x4F, // 3
    0x66, // 4
    0x6D, // 5
    0x7D, // 6
    0x07, // 7
    0x7F, // 8
    0x6F  // 9
  ]

  const SEPARATOR: bv8 := 0x80

  /** The pattern of digit `d` has the separator bit clear, so setting it always changes the pattern. */
  lemma SeparatorClear(d: nat)
    requires d < 10
    ensures DisplayDigit[d] & SEPARATOR == 0
    ensures DisplayDigit[d] | SEPARATOR != DisplayDigit[d]
  {
  }

  /** The pattern of digit `d` reads back as `d`. */
  lemma DigitRoundTrip(d: nat)
    requires d < 10
    ensures DecodeDigit(DisplayDigit[d]) == Some(d)
  {
    DigitTableDistinct();
  }

  /** Reads a segment pattern back as the digit it shows, if any. */
  function DecodeDigit(p: bv8): (r: Option<nat>)
    ensures r.Some? ==> r.value < 10 && DisplayDigit[r.value] == p
    ensures r.None? <==> p !in DisplayDigit
  {
    if p == 0x3F then Some(0)
    else if p == 0x06 then Some(1)
    else if p == 0x5B then Some(2)
    else if p == 0x4F then Some(3)
    else if p == 0x66 then Some(4)
    else if p == 0x6D then Some(5)
    else if p == 0x7D then Some(6)
    else if p == 0x07 then Some(7)
    else if p == 0x7F then Some(8)
    else if p == 0x6F then Some(9)
    else None
  }

  /** True when every element of `t` indexes the table. */
  predicate AllBelowTen(t: seq<uint8>) {
    forall i :: 0 <= i < |t| ==> t[i] < 10
  }

  /** Four table indexes: what the time frame and the status text show. */
  predicate AreDigits(t: seq<uint8>) {
    |t| == 4 && AllBelowTen(t)
  }

  /** The patterns of a sequence of digits. */
  function Glyphs(t: seq<uint8>): (ps: seq<bv8>)
    requires AllBelowTen(t)
    ensures |ps| == |t|
    ensures forall i :: 0 <= i < |t| ==> ps[i] == DisplayDigit[t[i]]
  {
    seq(|t|, i requires 0 <= i < |t| && AllBelowTen(t) => DisplayDigit[t[i]])
  }

  /** Reads a sequence of patterns back as digits, failing if any pattern is not a digit. */
  function DecodeDigits(ps: seq<bv8>): (r: Option<seq<uint8>>)
    ensures r.Some? ==> |r.value| == |ps| && AllBelowTen(r.value)
  {
    if |ps| == 0 then Some([])
    else
      match DecodeDigit(ps[0])
      case None => None
      case Some(d) =>
        match DecodeDigits(ps[1..])
        case None => None
        case Some(ds) => Some([d as uint8] + ds)
  }

  /** Decoding the patterns of some digits gives the digits back. */
  lemma {:induction false} DecodeGlyphs(t: seq<uint8>)
    requires AllBelowTen(t)
    ensures DecodeDigits(Glyphs(t)) == Some(t)
  {
    if |t| > 0 {
      assert Glyphs(t)[1..] == Glyphs(t[1..]);
      DecodeGlyphs(t[1..]);
      DigitRoundTrip(t[0] as nat);
      assert t == [t[0]] + t[1..];
    }
  }

  /** Patterns that decode are exactly the patterns of their digits. */
  lemma {:induction false} DecodeDigitsInverse(ps: seq<bv8>)
    requires DecodeDigits(ps).Some?
    ensures Glyphs(DecodeDigits(ps).value) == ps
  {
    if |ps| > 0 {
      DecodeDigitsInverse(ps[1..]);
      var t := DecodeDigits(ps).value;
      assert t[1..] == DecodeDigits(ps[1..]).value;
    }
  }

  /** The table has ten entries and no two digits share a pattern. */
  lemma DigitTableDistinct()
    ensures |DisplayDigit| == 10
    ensures forall i, j :: 0 <= i < j < 10 ==> DisplayDigit[i] != DisplayDigit[j]
  {
  }

  /**
   * `find_digits_in_url`: the bytes after the first `?`, up to but excluding
   * the first `&` after it; empty when the URL has no `?`.
   */
  function FindDigitsInUrl(url: seq<uint8>): (r: seq<uint8>)
    ensures QUESTION_MARK !in url ==> r == []
    ensures AMPERSAND !in r
    ensures QUESTION_MARK in url ==> |r| <= |url| - 1
    ensures ExtractedFrom(url, r)
  {
    match IndexOf(url, QUESTION_MARK)
    case None => []
    case Some(start) =>
      var rest := url[start + 1..];
      var end := match IndexOf(rest, AMPERSAND) case Some(e) => e case None => |rest|;
      assert url[start + 1..start + 1 + end] == rest[..end];
      assert QueryTokenAt(url, start, rest[..end]);
      rest[..end]
  }

  /**
   * Reference definition of the extracted token: `token` starts right after
   * the first `?` of `url`, holds no `&`, and ends at the end of `url` or at
   * an `&`; a URL without `?` yields nothing.
   */
  ghost predicate ExtractedFrom(url: seq<uint8>, token: seq<uint8>) {
    if QUESTION_MARK !in url then token == []
    else exists q :: QueryTokenAt(url, q, token)
  }

  ghost predicate QueryTokenAt(url: seq<uint8>, q: nat, token: seq<uint8>) {
    && q < |url| && url[q] == QUESTION_MARK && QUESTION_MARK !in url[..q]
    && q + 1 + |token| <= |url| && url[q + 1..q + 1 + |token|] == token
    && AMPERSAND !in token
    && (q + 1 + |token| == |url| || url[q + 1 + |token|] == AMPERSAND)
  }

  /** The reference definition determines the token: only the extracted one satisfies it. */
  lemma ExtractedFromUnique(url: seq<uint8>, token: seq<uint8>)
    requires ExtractedFrom(url, token)
    ensures token == FindDigitsInUrl(url)
  {
    var r := FindDigitsInUrl(url);
    if QUESTION_MARK in url {
      var q :| QueryTokenAt(url, q, token);
      var q' :| QueryTokenAt(url, q', r);
      QueryStartUnique(url, q, q');
      TokenLengthUnique(url, q, token, r);
    }
  }

  lemma QueryStartUnique(url: seq<uint8>, q: nat, q': nat)
    requires q < |url| && url[q] == QUESTION_MARK && QUESTION_MARK !in url[..q]
    requires q' < |url| && url[q'] == QUESTION_MARK && QUESTION_MARK !in url[..q']
    ensures q == q'
  {
  }

  lemma TokenLengthUnique(url: seq<uint8>, q: nat, a: seq<uint8>, b: seq<uint8>)
    requires QueryTokenAt(url, q, a) && QueryTokenAt(url, q, b)
    ensures a == b
  {
  }

  /**
   * Building a URL from a path without `?`, a token without `&`, and either
   * nothing or further parameters introduced by `&`, the token comes back.
   */
  lemma FindDigitsOfQuery(path: seq<uint8>, token: seq<uint8>, tail: seq<uint8>)
    requires QUESTION_MARK !in path
    requires AMPERSAND !in token
    requires tail == [] || tail[0] == AMPERSAND
    ensures FindDigitsInUrl(path + [QUESTION_MARK] + token + tail) == token
  {
    var url := path + [QUESTION_MARK] + token + tail;
    var q := |path|;
    assert url[..q] == path;
    assert url[q + 1..q + 1 + |token|] == token;
    assert QueryTokenAt(url, q, token);
    ExtractedFromUnique(url, token);
  }

  /** Without `&` after the `?`, the whole remainder is returned unchanged. */
  lemma FindDigitsWholeRemainder(url: seq<uint8>, q: nat)
    requires q < |url| && url[q] == QUESTION_MARK && QUESTION_MARK !in url[..q]
    requires AMPERSAND !in url[q + 1..]
    ensures FindDigitsInUrl(url) == url[q + 1..]
  {
    assert url == url[..q] + [QUESTION_MARK] + url[q + 1..] + [];
    FindDigitsOfQuery(url[..q], url[q + 1..], []);
  }

  /** The example of the function's documentation. */
  lemma FindDigitsDocExample()
    ensures FindDigitsInUrl(Ascii("http://example.com?12345&other_param=value")) == Ascii("12345")
  {
    DocExampleUrl();
    AsciiExcludes("http://example.com", '?');
    AsciiExcludes("12345", '&');
    FindDigitsOfQuery(Ascii("http://example.com"), Ascii("12345"), Ascii("&other_param=value"));
  }

  lemma DocExampleUrl()
    ensures Ascii("http://example.com?12345&other_param=value")
         == Ascii("http://example.com") + [QUESTION_MARK] + Ascii("12345") + Ascii("&other_param=value")
    ensures Ascii("&other_param=value")[0] == AMPERSAND
  {
    var path, token, tail := "http://example.com", "12345", "&other_param=value";
    assert "http://example.com?12345&other_param=value" == path + "?" + token + tail;
    AsciiAppend(path, "?");
    AsciiAppend(path + "?", token);
    AsciiAppend(path + "?" + token, tail);
  }
}

=== FILE: wrappers.dfy ===
/** Failure-carrying datatypes shared by every module of the model. */
module Wrappers {

  /** An optional value, the model of Rust's `Option`. */
  datatype Option<+T> = None | Some(value: T)

  /** A value or an error, the model of Rust's `Result`. */
  datatype Result<+T, +E> = Ok(value: T) | Err(error: E)
}
